=== FILE: README.md ===
# A web crawler and an A* state table, modelled in Dafny

This project models two small Java programs.

The first is a breadth-first web crawler (`Crawler`, `URLDepthPair`). It is
given a start URL and a maximum depth. It keeps a FIFO queue of
(URL, depth) pairs. For each pair it takes off the queue, it opens a socket
to port 80 of the URL's host and sends an HTTP/1.1 `GET` request. It then
reads the page line by line. Every line that contains `<a href="http://`
(compared in lower case) gives one link, which is queued one level deeper.
The pair is then recorded as processed.

The second is the state of an A* path search (`AStarState`, `Location`). It
holds an "open" and a "closed" table of waypoints, both keyed by grid
location.

Modules:

- `Wrappers`: `Option` and `Result`.
- `JavaStrings`: `String.indexOf`, `contains`, `substring` (which can throw) and ASCII `toLowerCase`.
- `LinkPairs`: the `URLDepthPair` value. It includes `toString` and `Integer.toString`, both proved invertible. `java.net.URL` is a parameter.
- `HttpRequest`: the request text `makeConnection` writes. It is proved to read back, by CRLF splitting, as the request-line `GET <path> HTTP/1.1`, the Host line, `Connection: close` and an empty line, for the URL's host and path when neither holds a line break, exactly when the path is non-empty, starts with `/` and holds no space.
- `CrawlSpec`: link extraction from one line, the scan of one page, and the crawl loop as a terminating function `Loop` with its entry point `Run`.
- `CrawlProperties`: what every crawl guarantees.
- `CrawlExamples`: concrete anchor lines proved to go through the extraction.
- `Crawling`: the `Crawler` class. `Crawl` updates the two lists in place with a `while` loop and is proved equal to `CrawlSpec.Run`.
- `Locations`: `Location` with 32-bit `hashCode` and `equals`.
- `AStar`: the `AStarState` class, with the two tables as `map` fields.

The network is a parameter of the model. It is a total function from the
host and the request text to what the connection yields: refused, the page's
lines, or the lines read before a read failure. `System.exit(1)` and the
uncaught `StringIndexOutOfBoundsException` are outcomes of the crawl
(`Exit(1)`, `Crashed`).

Behaviour of the code worth knowing, all proved in the model:

- **Pair at the maximum depth.** The crawler connects to it (Crawler.java:102), then `break`s out of the whole loop (Crawler.java:112-114). The pair is never recorded and the rest of the queue is abandoned. As a result, a maximum depth of 0 leaves the report empty, and every recorded pair has depth strictly below the maximum.
- **What the break abandons.** The queue stays sorted by depth, so everything left in it at the break is at the maximum depth (`RunDequeuesByDepth`, `RunAbandonsOnlyMaxDepth`).
- **Malformed marked lines.** A marked line with no case-sensitive `http://` or no closing quote after it makes `substring` throw. Nothing catches the exception, so the crawl dies (`CrawlExamples.UpperCaseLinkThrows`).
- **URLs without a path.** For a URL such as `http://example.com` the path is empty and the request-line is `GET  HTTP/1.1`, which has no request-target, so it is not a well-formed RFC 7230 request (`HttpRequest.EmptyPathNotWellFormed`).

## Model

| member | source | states |
|---|---|---|
| Locations.Origin | Lab2/Location.java:21-25 | `new Location()` is (0, 0), and its hash code is 23273 |
| Locations.Equals | Lab2/Location.java:29-42 | true exactly when the other object is a `Location` with the same x and y; false for null and any other class |
| Locations.EqualsIsEquivalence | Lab2/Location.java:29-42 | equals is reflexive, symmetric and transitive |
| Locations.HashCode | Lab2/Location.java:46-56 | the stepwise wrapping computation equals `37*(37*17 + x) + y` reduced to a 32-bit two's-complement int |
| Locations.EqualsConsistentWithHashCode | Lab2/Location.java:29-56 | equal locations have equal hash codes |
| Locations.HashCollision | Lab2/Location.java:46-56 | the hash is not injective: (0, 37) and (1, 0) are unequal but both hash to 23310 |
| AStar.AStarState.constructor | Lab2/AStarState.java:25-34 | a new state keeps the map and has empty open and closed tables |
| AStar.AStarState.Create | Lab2/AStarState.java:25-34 | fails with NullPointerException exactly when the map is null; otherwise a fresh state with empty tables |
| AStar.AStarState.GetMinOpenWaypoint | Lab2/AStarState.java:47-69 | null on an empty open table; null exactly when no open waypoint costs less than Float.MAX_VALUE; otherwise an open waypoint whose total cost is at most every open waypoint's |
| AStar.AddOpen | Lab2/AStarState.java:80-96 | the waypoint goes in (and the result is true) exactly when its location is not open or its previous cost is strictly smaller; otherwise the table is unchanged; other locations keep their entries; the count grows by one exactly for a new location |
| AStar.AStarState.AddOpenWaypoint | Lab2/AStarState.java:80-96 | the open table and result are those of `AddOpen`; `numOpenWaypoints()` grows by one exactly when the location was not open; the closed table is untouched; waypoints stay stored under their own location |
| AStar.AStarState.NumOpenWaypoints | Lab2/AStarState.java:100-103 | the number of open locations |
| AStar.Close | Lab2/AStarState.java:110-115 | loc leaves the open table and enters the closed table with the waypoint that was open there, or null; every other entry of both tables is unchanged |
| AStar.AStarState.CloseWaypoint | Lab2/AStarState.java:110-115 | the tables become those of `Close`, and afterwards loc is closed even if it was never open |
| AStar.AStarState.IsLocationClosed | Lab2/AStarState.java:121-124 | true exactly when loc has a closed entry |
| LinkPairs.IsValidURL | URLDepthPair.java:58-67 | when the parser rejects the URL it is false and both getHost and getPath give "Error"; when it accepts it, it is true and they give the parsed host and path |
| LinkPairs.GetHost | URLDepthPair.java:72-83 | "Error" when the URL does not parse (the error branch is taken exactly when `IsValidURL` is false); otherwise the parsed host, which may itself be "Error" |
| LinkPairs.GetPath | URLDepthPair.java:88-100 | "Error" when the URL does not parse (the error branch is taken exactly when `IsValidURL` is false); otherwise the parsed path, which may itself be "Error" |
| LinkPairs.UrlViewsDependOnUrlOnly | URLDepthPair.java:58-100 | validity, host and path are functions of the URL string through the one parser, independent of the depth |
| LinkPairs.IntToDecimal | URLDepthPair.java:37 | `Integer.toString`: a '-' exactly for a negative number, then a non-empty run of digits with a leading zero exactly when the number is 0, and 0 itself is the single `0` |
| LinkPairs.DecimalRoundTrip | URLDepthPair.java:37 | the decimal text of any int (`Integer.toString`) reads back as that int |
| LinkPairs.ToString | URLDepthPair.java:35-38 | the line is `URL: `, then the url, then `, Depth: `, then the depth's decimal, which is the line's longest trailing run of digits and '-' |
| LinkPairs.ReportRoundTrip | URLDepthPair.java:35-38 | `toString` is `"URL: " + url + ", Depth: " + decimal(depth)`: reading the line back recovers the pair |
| HttpRequest.RequestText | Crawler.java:59-63 | the request starts with `GET `; with separator "\n" it is `GET <path> HTTP/1.1`, `Host: <host>`, `Connection: close` and an empty line, each ended by CRLF |
| HttpRequest.RequestRoundTrip | Crawler.java:59-63 | for a host and path without line breaks, the request reads back (split at CRLF) as `GET <path> HTTP/1.1`, `Host: <host>`, `Connection: close` and an empty line, yielding that path and host, exactly when the path is non-empty, starts with `/` and has no space; otherwise it does not read back |
| HttpRequest.EmptyPathNotWellFormed | Crawler.java:60 | a URL with an empty path yields a request-line with no target, which does not read back |
| CrawlSpec.ExtractLink | Crawler.java:126-133 | a line yields nothing exactly when its lower-cased text lacks the lower-cased marker |
| CrawlSpec.ExtractLinkSpec | Crawler.java:126-133 | a link is the text from the first `http://` to the next `"`; it starts with `http://` and holds no `"`; substring throws exactly when a marked line has no such span |
| CrawlSpec.ExtractFromSpan | Crawler.java:126-133 | conversely, a marked line with such a span yields exactly its text |
| CrawlSpec.ScanLinesSpec | Crawler.java:117-138 | a page scan fails exactly when one of its lines throws; otherwise it yields one link per marked line, in page order |
| CrawlSpec.Children | Crawler.java:133-134 | each link of a page at depth d is queued with depth d+1 |
| CrawlSpec.Fetch | Crawler.java:50-65 | the connection goes to the parsed host with the request for the parsed host and path; a URL that does not parse is fetched from host "Error" with path "Error" |
| CrawlSpec.Seed | Crawler.java:87 | the seed pair is (firstUrl, 0), reported as `URL: <firstUrl>, Depth: 0` |
| CrawlSpec.Loop | Crawler.java:97-141 | the crawl loop only appends to the report, the removal log and the append log; a non-empty queue's head is the next pair removed; every exit is `System.exit(1)` |
| CrawlSpec.Run | Crawler.java:82-152 | crawl() only appends to the report; the first pair removed from the queue is the seed; every exit is `System.exit(1)` |
| CrawlSpec.StepLayered | Crawler.java:97-141 | processing a head below the bound keeps the queue sorted and within one level, and decreases the termination measure |
| CrawlExamples.AbsoluteLinkExtracted | Crawler.java:126-133 | `<a href="http://example.com/x">link</a>` yields `http://example.com/x` |
| CrawlExamples.UpperCaseLinkThrows | Crawler.java:126-133 | `<A HREF="HTTP://X/">` has the marker, but substring throws |
| CrawlExamples.RelativeLinkIgnored | Crawler.java:126 | a relative anchor lacks the marker and is ignored |
| CrawlProperties.LoopIsFifo | Crawler.java:97-141 | pairs leave the queue in the order they entered it |
| CrawlProperties.LoopRecordsDequeueOrder | Crawler.java:97-141 | the processed list is append-only and follows removal order, missing at most the pair the loop stopped on |
| CrawlProperties.LoopDepthBounds | Crawler.java:109-141 | recorded pairs have depth below the maximum; queued pairs have depth in [1, max] |
| CrawlProperties.LoopDequeuesByDepth | Crawler.java:97-141 | pairs are removed in order of depth |
| CrawlProperties.LoopStopsAtMaxDepth | Crawler.java:100-114 | removing a pair at the maximum depth, when the connection succeeds, ends the crawl normally: the pair is not recorded and the rest of the queue is left |
| CrawlProperties.LoopAbandonsOnlyMaxDepth | Crawler.java:97-114 | a crawl that ends normally abandons only pairs at the maximum depth |
| CrawlProperties.RunInvalidSeed | Crawler.java:87-94 | an invalid seed exits with status 1 before any connection; the queue holds the seed, nothing is processed, and the network is never consulted |
| CrawlProperties.RunIsFifo | Crawler.java:87-141 | the seed followed by every appended pair is what was removed followed by what is left |
| CrawlProperties.RunRecordsRemovalOrder | Crawler.java:87-141 | the report is what it held before, followed by the removed pairs in order, missing at most the last; the first pair removed is the seed |
| CrawlProperties.RunDepthBounds | Crawler.java:87-141 | every reported pair has depth below the maximum; every queued pair has depth in [1, max] |
| CrawlProperties.RunDequeuesByDepth | Crawler.java:87-141 | the crawl is breadth-first: removal order is by depth |
| CrawlProperties.RunAbandonsOnlyMaxDepth | Crawler.java:87-114 | a crawl that ends normally leaves only pairs at the maximum depth in the queue |
| CrawlProperties.RunMaxDepthZero | Crawler.java:87-114 | with maximum depth 0 nothing is reported or appended, and the seed is the only pair ever queued |
| Crawling.Crawler.constructor | Crawler.java:33-39 | both lists empty; the depth and URL stored |
| Crawling.Crawler.ReadLinks | Crawler.java:117-138 | the readLine loop appends the page's links at depth+1 to the queue and reports whether a line threw |
| Crawling.Crawler.Crawl | Crawler.java:82-152 | the outcome and the final queue and report are those of `CrawlSpec.Run` from the crawler's report |

## Left out

- Socket I/O: the socket, the 3-second timeout, the `PrintWriter` and the `BufferedReader` are not modelled. They are replaced by the network parameter, which takes host and request text. Only the request text is computed.
- `System.exit`, `usage()` and console output are not modelled as effects. Exits become the outcome `Exit(1)`, and printed messages are dropped. `getSites()` only prints the report, so it is left out.
- `main`: the argument count and `Integer.parseInt` checks are left out. What `main` guarantees becomes the precondition of `Crawler.Crawl`: the maximum depth is not negative and the queue is empty.
- `java.net.URL` is not part of this model. Validity, host and path come from one parser parameter, and no URL grammar is assumed.
- The `LinkedList` fields are `seq` fields that the methods reassign. Aliasing of the lists is not modelled, since no other object holds them.
- Depths are unbounded integers. Every depth stays between 0 and the maximum, which is itself an int, so 32-bit overflow cannot occur.
- `toLowerCase` only folds ASCII letters. Locale-dependent and non-ASCII case mappings are left out.
- `AStar.AStarState.GetMinOpenWaypoint`: costs are exact reals. Float rounding, NaN and infinities are not modelled. The `Float.MAX_VALUE` start value is kept. Which of several equally cheap waypoints is returned depends on `HashMap` order, so that choice is left open.
- `getMap()` only returns a field, and `Waypoint` and `Map2D` are not part of this model. A waypoint is modelled as its location, previous cost and total cost. The map is an opaque object.
- `HashMap` hashing itself is not modelled. The tables are maps keyed by the `Location` value, which `Locations.EqualsConsistentWithHashCode` justifies.
- The fractal explorers, `JImageDisplay`, the fractal generators and Lab1 are outside the modelled core.
- `HttpRequest.RequestRoundTrip`: checks only the line structure and the outline of the target (non-empty, leading `/`, no space); the RFC 3986 character grammar of the target and the `uri-host` grammar of the Host value are not checked, so conformance to RFC 7230 is not claimed beyond that.

=== FILE: AStarState.dfy ===
/**
 * Lab2/AStarState.java: the open and closed waypoint tables of an A*
 * search. Both tables are hash maps keyed by Location; since Location's
 * equals is structural and its hashCode agrees with it (see
 * Locations.EqualsConsistentWithHashCode), they behave as maps keyed by the
 * Location value, which is what Dafny's `map` is.
 */
module AStar {
  import opened Wrappers
  import opened Locations

  /** Float.MAX_VALUE, the starting minimum of the open-waypoint scan. */
  const FloatMax: real := 340282346638528859811704183484516925440.0

  /** A waypoint: where it is, the cost to reach it, and that cost plus the estimate to the goal. */
  datatype Waypoint = Waypoint(location: Location, previousCost: real, totalCost: real)

  /** The map being navigated; its contents play no part in the tables. */
  class Map2D {
  }

  /** The exception the constructor throws. */
  datatype JavaException = NullPointerException(message: string)

  /** Every open waypoint is stored under its own location. */
  predicate OpenKeyed(open: map<Location, Waypoint>) {
    forall l :: l in open ==> open[l].location == l
  }

  /** Every closed waypoint (a closed entry may be null) is stored under its own location. */
  predicate ClosedKeyed(closed: map<Location, Option<Waypoint>>) {
    forall l :: l in closed && closed[l].Some? ==> closed[l].value.location == l
  }

  /** `w` has the least total cost among the open waypoints. */
  predicate IsMinOpen(open: map<Location, Waypoint>, w: Waypoint) {
    w in open.Values && forall l :: l in open ==> w.totalCost <= open[l].totalCost
  }

  /**
   * The open table and result of addOpenWaypoint(w): the waypoint goes in
   * when its location is free or when it reaches that location more cheaply
   * than the waypoint already there.
   */
  function AddOpen(open: map<Location, Waypoint>, w: Waypoint): (r: (map<Location, Waypoint>, bool))
    ensures r.1 <==> w.location !in open || w.previousCost < open[w.location].previousCost
    ensures r.1 ==> w.location in r.0 && r.0[w.location] == w
    ensures !r.1 ==> r.0 == open
    ensures r.0.Keys == open.Keys + {w.location}
    ensures forall l :: l in open && l != w.location ==> r.0[l] == open[l]
    ensures |r.0| == if w.location in open then |open| else |open| + 1
    ensures OpenKeyed(open) ==> OpenKeyed(r.0)
  {
    if w.location !in open then (open[w.location := w], true)
    else if w.previousCost < open[w.location].previousCost then (open[w.location := w], true)
    else (open, false)
  }

  /**
   * The two tables after closeWaypoint(loc): loc leaves the open table and
   * enters the closed one with whatever was open there (null if nothing).
   */
  function Close(open: map<Location, Waypoint>, closed: map<Location, Option<Waypoint>>, loc: Location)
    : (r: (map<Location, Waypoint>, map<Location, Option<Waypoint>>))
    ensures loc !in r.0 && r.0.Keys == open.Keys - {loc}
    ensures loc in r.1 && r.1.Keys == closed.Keys + {loc}
    ensures r.1[loc] == if loc in open then Some(open[loc]) else None
    ensures forall l :: l in open && l != loc ==> r.0[l] == open[l]
    ensures forall l :: l in closed && l != loc ==> r.1[l] == closed[l]
    ensures OpenKeyed(open) ==> OpenKeyed(r.0)
    ensures OpenKeyed(open) && ClosedKeyed(closed) ==> ClosedKeyed(r.1)
  {
    var wp := if loc in open then Some(open[loc]) else None;
    (open - {loc}, closed[loc := wp])
  }

  class AStarState {
    var grid: Map2D  // the Java field `map`
    var openWaypoints: map<Location, Waypoint>
    var closedWaypoints: map<Location, Option<Waypoint>>

    ghost predicate Valid()
      reads this
    {
      OpenKeyed(openWaypoints) && ClosedKeyed(closedWaypoints)
    }

    constructor (grid: Map2D)
      ensures Valid()
      ensures this.grid == grid && openWaypoints == map[] && closedWaypoints == map[]
    {
      this.grid := grid;
      openWaypoints := map[];
      closedWaypoints := map[];
    }

    /** `new AStarState(grid)`, which throws on a null map. */
    static method Create(grid: Map2D?) returns (r: Result<AStarState, JavaException>)
      ensures r.Failure? <==> grid == null
      ensures r.Success? ==> fresh(r.value) && r.value.Valid() && r.value.grid == grid
                             && r.value.openWaypoints == map[] && r.value.closedWaypoints == map[]
    {
      if grid == null {
        return Failure(NullPointerException("map cannot be null"));
      }
      var s := new AStarState(grid);
      return Success(s);
    }

    /**
     * getMinOpenWaypoint(): None (Java null) when no open waypoint costs less
     * than Float.MAX_VALUE, in particular when the table is empty; otherwise
     * an open waypoint of least total cost. Which of several equally cheap
     * waypoints is returned depends on the hash map's order and is left open.
     */
    method GetMinOpenWaypoint() returns (r: Option<Waypoint>)
      ensures openWaypoints == map[] ==> r == None
      ensures r.None? <==> forall l :: l in openWaypoints ==> openWaypoints[l].totalCost >= FloatMax
      ensures r.Some? ==> IsMinOpen(openWaypoints, r.value) && r.value.totalCost < FloatMax
    {
      if |openWaypoints| == 0 {
        return None;
      }
      var min := FloatMax;
      var rWaypoint: Option<Waypoint> := None;
      var remaining := openWaypoints.Keys;
      while remaining != {}
        invariant remaining <= openWaypoints.Keys
        invariant rWaypoint.None? ==> min == FloatMax
        invariant rWaypoint.Some? ==> rWaypoint.value in openWaypoints.Values
                                      && rWaypoint.value.totalCost == min < FloatMax
        invariant forall l :: l in openWaypoints && l !in remaining ==> min <= openWaypoints[l].totalCost
        decreases remaining
      {
        var loc :| loc in remaining;
        var value := openWaypoints[loc];
        if value.totalCost < min {
          min := value.totalCost;
          rWaypoint := Some(value);
        }
        remaining := remaining - {loc};
      }
      return rWaypoint;
    }

    /** addOpenWaypoint(newWP): the closed table is untouched. */
    method AddOpenWaypoint(newWP: Waypoint) returns (added: bool)
      requires Valid()
      modifies this`openWaypoints
      ensures Valid()
      ensures (openWaypoints, added) == AddOpen(old(openWaypoints), newWP)
      ensures closedWaypoints == old(closedWaypoints)
      ensures NumOpenWaypoints() == |old(openWaypoints)| + (if newWP.location in old(openWaypoints) then 0 else 1)
    {
      if newWP.location !in openWaypoints {
        openWaypoints := openWaypoints[newWP.location := newWP];
        return true;
      } else {
        var newCost := newWP.previousCost;
        var currCost := openWaypoints[newWP.location].previousCost;
        if newCost < currCost {
          openWaypoints := openWaypoints[newWP.location := newWP];
          return true;
        }
      }
      return false;
    }

    /** numOpenWaypoints(). */
    function NumOpenWaypoints(): (n: nat)
      reads this
      ensures n == |openWaypoints.Keys|
    {
      |openWaypoints|
    }

    /** closeWaypoint(loc). */
    method CloseWaypoint(loc: Location)
      requires Valid()
      modifies this`openWaypoints, this`closedWaypoints
      ensures Valid()
      ensures (openWaypoints, closedWaypoints) == Close(old(openWaypoints), old(closedWaypoints), loc)
      ensures IsLocationClosed(loc)
    {
      var wp := if loc in openWaypoints then Some(openWaypoints[loc]) else None;
      openWaypoints := openWaypoints - {loc};
      closedWaypoints := closedWaypoints[loc := wp];
    }

    /** isLocationClosed(loc). */
    function IsLocationClosed(loc: Location): (closed: bool)
      reads this
      ensures closed <==> loc in closedWaypoints.Keys
    {
      loc in closedWaypoints
    }
  }
}

=== FILE: CrawlExamples.dfy ===
/**
 * Anchor lines proved to go through the link extraction of crawl(): an absolute link
 * is cut out between "http://" and the closing quote; an upper-case anchor
 * has the marker (compared in lower case) but no "http://", so substring
 * throws; a relative link lacks the marker, which includes "http://", and
 * is ignored.
 */
module CrawlExamples {
  import opened JavaStrings
  import opened CrawlSpec

  lemma LowerSlice(s: string, a: int, b: int)
    requires 0 <= a <= b <= |s|
    ensures Lower(s)[a..b] == Lower(s[a..b])
  {
  }

  lemma SliceMiddle(a: string, b: string, c: string)
    ensures (a + b + c)[|a|..|a| + |b|] == b
  {
  }

  /** A line that starts with the marker has it, whatever follows. */
  lemma MarkerAtStart(line: string)
    requires |line| >= |LINE_PREFIX| && line[..|LINE_PREFIX|] == LINE_PREFIX
    ensures HasMarker(line)
  {
    LowerSlice(line, 0, |LINE_PREFIX|);
    assert OccursAt(Lower(line), Lower(LINE_PREFIX), 0);
  }

  lemma AbsoluteSpan(line: string)
    requires line == "<a href=\"http://example.com/x\">link</a>"
    ensures LinkSpan(line, 9, 29)
  {
    var pre, u, post := "<a href=\"", "http://example.com/x", "\">link</a>";
    assert line == pre + u + post;
    assert line[9..16] == URL_PREFIX by {
      assert u[..7] == URL_PREFIX;
      assert line[9..16] == u[..7];
    }
    forall k | 0 <= k < 9 ensures !OccursAt(line, URL_PREFIX, k) {
      assert line[k..k + 7][0] == line[k];
      assert line[k..k + 7][1] == line[k + 1];
    }
    assert line[29] == post[0] == '"';
    forall k | 9 <= k < 29 ensures line[k] != '"' {
      assert line[k] == u[k - 9];
    }
  }

  lemma AbsoluteUrl(line: string)
    requires line == "<a href=\"http://example.com/x\">link</a>"
    ensures line[9..29] == "http://example.com/x"
  {
    var pre, u, post := "<a href=\"", "http://example.com/x", "\">link</a>";
    assert line == pre + u + post;
    SliceMiddle(pre, u, post);
  }

  /** An anchor with an absolute URL yields that URL. */
  lemma AbsoluteLinkExtracted(line: string)
    requires line == "<a href=\"http://example.com/x\">link</a>"
    ensures ExtractLink(line) == Link("http://example.com/x")
  {
    MarkerAtStart(line);
    AbsoluteSpan(line);
    ExtractFromSpan(line, 9, 29);
    AbsoluteUrl(line);
  }

  /**
   * An upper-case anchor has the marker, which is compared in lower case,
   * but not the case-sensitive "http://": substring throws.
   */
  lemma UpperCaseLinkThrows(line: string)
    requires line == "<A HREF=\"HTTP://X/\">"
    ensures ExtractLink(line) == OutOfBounds
  {
    assert Lower(line)[..|LINE_PREFIX|] == LINE_PREFIX;
    assert OccursAt(Lower(line), Lower(LINE_PREFIX), 0);
    forall k | 0 <= k < |line| ensures line[k] != 'h' {
    }
    forall i | 0 <= i && i + |URL_PREFIX| <= |line| ensures !OccursAt(line, URL_PREFIX, i) {
      assert line[i..i + |URL_PREFIX|][0] != URL_PREFIX[0];
    }
    ExtractLinkSpec(line);
  }

  /** A relative link lacks the marker, which includes "http://": the line is ignored. */
  lemma RelativeLinkIgnored(line: string)
    requires line == "<a href=\"/\">"
    ensures ExtractLink(line) == NoLink
  {
    assert |line| < |Lower(LINE_PREFIX)|;
  }
}

=== FILE: CrawlProperties.dfy ===
/**
 * What the crawl loop guarantees: the queue is first-in first-out, the
 * processed list grows only at its end and follows the order of removal,
 * pairs are removed in order of depth and only pairs below the maximum depth
 * are recorded, and the first pair found at the maximum depth ends the crawl.
 */
module CrawlProperties {
  import opened LinkPairs
  import opened CrawlSpec

  /**
   * First-in first-out: if `base` followed by the pairs appended so far is
   * what was removed followed by what is queued, that stays so: pairs leave
   * the queue in the order they entered it.
   */
  lemma {:induction false} LoopIsFifo(w: World, maxDepth: int, pending: seq<URLDepthPair>,
                                      processed: seq<URLDepthPair>, dequeued: seq<URLDepthPair>,
                                      enqueued: seq<URLDepthPair>, base: seq<URLDepthPair>)
    requires Layered(pending, maxDepth)
    requires base + enqueued == dequeued + pending
    ensures var f := Loop(w, maxDepth, pending, processed, dequeued, enqueued);
            base + f.enqueued == f.dequeued + f.pending
    decreases Rank(pending, maxDepth), HeadLayer(pending)
  {
    if pending != [] {
      var h := pending[0];
      var rest := pending[1..];
      assert dequeued + pending == (dequeued + [h]) + rest;
      var response := Fetch(w, h);
      if !response.Refused? && h.depth != maxDepth {
        var s := ScanLines(if response.Page? then response.lines else response.before);
        var kids := Children(s.links, h.depth);
        calc {
          base + (enqueued + kids);
          (base + enqueued) + kids;
          (dequeued + pending) + kids;
          ((dequeued + [h]) + rest) + kids;
          (dequeued + [h]) + (rest + kids);
        }
        if !s.fault && response.Page? {
          StepLayered(pending, maxDepth, kids);
          LoopIsFifo(w, maxDepth, rest + kids, processed + [h], dequeued + [h], enqueued + kids, base);
        }
      }
    }
  }

  /**
   * The processed list is `base` followed by everything removed from the
   * queue: all of it when the queue ran empty, otherwise all but the last
   * pair removed.
   */
  predicate RecordsRemovalOrder(f: Final, base: seq<URLDepthPair>) {
    || (f.outcome == Finished && f.pending == [] && f.processed == base + f.dequeued)
    || (f.dequeued != [] && f.processed + [f.dequeued[|f.dequeued| - 1]] == base + f.dequeued)
  }

  /**
   * If the processed list is `base` followed by everything removed so far,
   * then at the end it is `base` followed by everything removed, or by
   * everything removed but the last pair, the one the crawl stopped on (the
   * depth break, a refused connection, a read failure or a crash).
   */
  lemma {:induction false} LoopRecordsDequeueOrder(w: World, maxDepth: int, pending: seq<URLDepthPair>,
                                                   processed: seq<URLDepthPair>, dequeued: seq<URLDepthPair>,
                                                   enqueued: seq<URLDepthPair>, base: seq<URLDepthPair>)
    requires Layered(pending, maxDepth)
    requires processed == base + dequeued
    ensures RecordsRemovalOrder(Loop(w, maxDepth, pending, processed, dequeued, enqueued), base)
    decreases Rank(pending, maxDepth), HeadLayer(pending)
  {
    if pending != [] {
      var f := Loop(w, maxDepth, pending, processed, dequeued, enqueued);
      var h := pending[0];
      var rest := pending[1..];
      var response := Fetch(w, h);
      var deq := dequeued + [h];
      assert processed + [h] == base + deq;
      if response.Refused? || h.depth == maxDepth {
        assert f.processed == processed && f.dequeued == deq;
        assert RecordsRemovalOrder(f, base) by {
          assert f.dequeued[|f.dequeued| - 1] == h;
        }
      } else {
        var s := ScanLines(if response.Page? then response.lines else response.before);
        var kids := Children(s.links, h.depth);
        if !s.fault && response.Page? {
          StepLayered(pending, maxDepth, kids);
          assert f == Loop(w, maxDepth, rest + kids, processed + [h], deq, enqueued + kids);
          LoopRecordsDequeueOrder(w, maxDepth, rest + kids, processed + [h], deq, enqueued + kids, base);
        } else {
          assert f.processed == processed && f.dequeued == deq;
          assert RecordsRemovalOrder(f, base) by {
            assert f.dequeued[|f.dequeued| - 1] == h;
          }
        }
      }
    }
  }

  /**
   * Every pair the loop records as processed is below the maximum depth, and
   * every pair it appends to the queue has a depth in [1, maxDepth].
   */
  lemma {:induction false} LoopDepthBounds(w: World, maxDepth: int, pending: seq<URLDepthPair>,
                                           processed: seq<URLDepthPair>, dequeued: seq<URLDepthPair>,
                                           enqueued: seq<URLDepthPair>, base: seq<URLDepthPair>)
    requires Layered(pending, maxDepth)
    requires |base| <= |processed| && forall i :: |base| <= i < |processed| ==> 0 <= processed[i].depth < maxDepth
    requires forall i :: 0 <= i < |enqueued| ==> 1 <= enqueued[i].depth <= maxDepth
    ensures var f := Loop(w, maxDepth, pending, processed, dequeued, enqueued);
            && |base| <= |f.processed|
            && (forall i :: |base| <= i < |f.processed| ==> 0 <= f.processed[i].depth < maxDepth)
            && (forall i :: 0 <= i < |f.enqueued| ==> 1 <= f.enqueued[i].depth <= maxDepth)
    decreases Rank(pending, maxDepth), HeadLayer(pending)
  {
    if pending != [] {
      var h := pending[0];
      var rest := pending[1..];
      var response := Fetch(w, h);
      if !response.Refused? && h.depth != maxDepth {
        var s := ScanLines(if response.Page? then response.lines else response.before);
        var kids := Children(s.links, h.depth);
        var e := enqueued + kids;
        assert forall i :: 0 <= i < |e| ==> 1 <= e[i].depth <= maxDepth by {
          forall i | |enqueued| <= i < |e| ensures e[i] == kids[i - |enqueued|] { }
        }
        if !s.fault && response.Page? {
          StepLayered(pending, maxDepth, kids);
          var p1 := processed + [h];
          assert forall i :: |base| <= i < |p1| ==> 0 <= p1[i].depth < maxDepth by {
            forall i | |base| <= i < |processed| ensures p1[i] == processed[i] { }
          }
          LoopDepthBounds(w, maxDepth, rest + kids, p1, dequeued + [h], e, base);
        }
      }
    }
  }

  /**
   * Breadth-first order: pairs leave the queue in order of depth, so every
   * page at depth d is processed before any page at depth d + 1.
   */
  lemma {:induction false} LoopDequeuesByDepth(w: World, maxDepth: int, pending: seq<URLDepthPair>,
                                               processed: seq<URLDepthPair>, dequeued: seq<URLDepthPair>,
                                               enqueued: seq<URLDepthPair>)
    requires Layered(pending, maxDepth)
    requires SortedByDepth(dequeued)
    requires dequeued != [] && pending != [] ==> dequeued[|dequeued| - 1].depth <= pending[0].depth
    ensures SortedByDepth(Loop(w, maxDepth, pending, processed, dequeued, enqueued).dequeued)
    decreases Rank(pending, maxDepth), HeadLayer(pending)
  {
    if pending != [] {
      var h := pending[0];
      var rest := pending[1..];
      var d1 := dequeued + [h];
      assert SortedByDepth(d1) by {
        forall i, j | 0 <= i <= j < |d1| ensures d1[i].depth <= d1[j].depth {
          if j == |dequeued| && i < j {
            assert d1[i] == dequeued[i];
            assert dequeued[i].depth <= dequeued[|dequeued| - 1].depth;
          }
        }
      }
      var response := Fetch(w, h);
      if !response.Refused? && h.depth != maxDepth {
        var s := ScanLines(if response.Page? then response.lines else response.before);
        var kids := Children(s.links, h.depth);
        if !s.fault && response.Page? {
          StepLayered(pending, maxDepth, kids);
          var q' := rest + kids;
          if q' != [] {
            if rest != [] {
              assert q'[0] == pending[1];
            } else {
              assert q'[0] == kids[0];
            }
          }
          LoopDequeuesByDepth(w, maxDepth, q', processed + [h], d1, enqueued + kids);
        }
      }
    }
  }

  /**
   * Removing a pair at the maximum depth ends the crawl: the pair is dropped
   * (connected to, never read and never recorded) and the queue behind it is
   * abandoned.
   */
  lemma LoopStopsAtMaxDepth(w: World, maxDepth: int, pending: seq<URLDepthPair>,
                            processed: seq<URLDepthPair>, dequeued: seq<URLDepthPair>,
                            enqueued: seq<URLDepthPair>)
    requires Layered(pending, maxDepth)
    requires pending != [] && pending[0].depth == maxDepth && !Fetch(w, pending[0]).Refused?
    ensures Loop(w, maxDepth, pending, processed, dequeued, enqueued)
            == Final(Finished, pending[1..], processed, dequeued + [pending[0]], enqueued)
  {
  }

  /**
   * Pairs are removed in order of depth, so when the crawl ends normally the
   * queue it abandons holds only pairs at the maximum depth: the break never
   * discards a shallower pair.
   */
  lemma {:induction false} LoopAbandonsOnlyMaxDepth(w: World, maxDepth: int, pending: seq<URLDepthPair>,
                                                    processed: seq<URLDepthPair>, dequeued: seq<URLDepthPair>,
                                                    enqueued: seq<URLDepthPair>)
    requires Layered(pending, maxDepth)
    ensures var f := Loop(w, maxDepth, pending, processed, dequeued, enqueued);
            f.outcome == Finished ==> forall i :: 0 <= i < |f.pending| ==> f.pending[i].depth == maxDepth
    decreases Rank(pending, maxDepth), HeadLayer(pending)
  {
    if pending != [] {
      var h := pending[0];
      var rest := pending[1..];
      var response := Fetch(w, h);
      if !response.Refused? {
        if h.depth == maxDepth {
          forall i | 0 <= i < |rest| ensures rest[i].depth == maxDepth {
            assert rest[i] == pending[i + 1];
          }
        } else {
          var s := ScanLines(if response.Page? then response.lines else response.before);
          var kids := Children(s.links, h.depth);
          if !s.fault && response.Page? {
            StepLayered(pending, maxDepth, kids);
            LoopAbandonsOnlyMaxDepth(w, maxDepth, rest + kids, processed + [h], dequeued + [h], enqueued + kids);
          }
        }
      }
    }
  }

  // ----- whole crawls -----

  /** An invalid seed exits before any connection: nothing is removed, nothing processed, the network never consulted. */
  lemma RunInvalidSeed(w: World, w': World, maxDepth: int, firstUrl: string, processed: seq<URLDepthPair>)
    requires maxDepth >= 0 && w'.parse == w.parse
    requires !IsValidURL(Seed(firstUrl), w.parse)
    ensures Run(w, maxDepth, firstUrl, processed) == Final(Exit(1), [Seed(firstUrl)], processed, [], [])
    ensures Run(w', maxDepth, firstUrl, processed) == Run(w, maxDepth, firstUrl, processed)
  {
  }

  /** The seed followed by every appended pair is exactly what was removed followed by what is left. */
  lemma RunIsFifo(w: World, maxDepth: int, firstUrl: string, processed: seq<URLDepthPair>)
    requires maxDepth >= 0
    ensures var f := Run(w, maxDepth, firstUrl, processed);
            [Seed(firstUrl)] + f.enqueued == f.dequeued + f.pending
  {
    if IsValidURL(Seed(firstUrl), w.parse) {
      LoopIsFifo(w, maxDepth, [Seed(firstUrl)], processed, [], [], [Seed(firstUrl)]);
    }
  }

  /**
   * The report lists the pairs in the order they left the queue, after
   * whatever it held before: all of them, or all but the last, the one the
   * crawl stopped on. The first pair to leave the queue is the seed.
   */
  lemma RunRecordsRemovalOrder(w: World, maxDepth: int, firstUrl: string, processed: seq<URLDepthPair>)
    requires maxDepth >= 0
    ensures var f := Run(w, maxDepth, firstUrl, processed);
            || f.processed == processed + f.dequeued
            || (f.dequeued != [] && f.processed + [f.dequeued[|f.dequeued| - 1]] == processed + f.dequeued)
    ensures var f := Run(w, maxDepth, firstUrl, processed);
            f.dequeued != [] ==> f.dequeued[0] == Seed(firstUrl)
  {
    var seed := Seed(firstUrl);
    var f := Run(w, maxDepth, firstUrl, processed);
    if !IsValidURL(seed, w.parse) {
      assert f.processed == processed + [];
    } else {
      LoopRecordsDequeueOrder(w, maxDepth, [seed], processed, [], [], processed);
    }
  }

  /**
   * Every pair the crawl adds to the report is below the maximum depth, and
   * every pair it appends to the queue has a depth in [1, maxDepth].
   */
  lemma RunDepthBounds(w: World, maxDepth: int, firstUrl: string, processed: seq<URLDepthPair>)
    requires maxDepth >= 0
    ensures var f := Run(w, maxDepth, firstUrl, processed);
            && |processed| <= |f.processed|
            && (forall i :: |processed| <= i < |f.processed| ==> 0 <= f.processed[i].depth < maxDepth)
            && (forall i :: 0 <= i < |f.enqueued| ==> 1 <= f.enqueued[i].depth <= maxDepth)
  {
    if IsValidURL(Seed(firstUrl), w.parse) {
      LoopDepthBounds(w, maxDepth, [Seed(firstUrl)], processed, [], [], processed);
    }
  }

  /** Breadth-first: the crawl removes pairs from its queue in order of depth. */
  lemma RunDequeuesByDepth(w: World, maxDepth: int, firstUrl: string, processed: seq<URLDepthPair>)
    requires maxDepth >= 0
    ensures SortedByDepth(Run(w, maxDepth, firstUrl, processed).dequeued)
  {
    if IsValidURL(Seed(firstUrl), w.parse) {
      LoopDequeuesByDepth(w, maxDepth, [Seed(firstUrl)], processed, [], []);
    }
  }

  /** A crawl that ends normally leaves in the queue only pairs at the maximum depth. */
  lemma RunAbandonsOnlyMaxDepth(w: World, maxDepth: int, firstUrl: string, processed: seq<URLDepthPair>)
    requires maxDepth >= 0
    ensures var f := Run(w, maxDepth, firstUrl, processed);
            f.outcome == Finished ==> forall i :: 0 <= i < |f.pending| ==> f.pending[i].depth == maxDepth
  {
    if IsValidURL(Seed(firstUrl), w.parse) {
      LoopAbandonsOnlyMaxDepth(w, maxDepth, [Seed(firstUrl)], processed, [], []);
    }
  }

  /**
   * With maximum depth 0 the seed itself triggers the break (or the crawl
   * exits earlier): the report stays as it was and nothing is enqueued.
   */
  lemma RunMaxDepthZero(w: World, firstUrl: string, processed: seq<URLDepthPair>)
    ensures var f := Run(w, 0, firstUrl, processed);
            f.processed == processed && f.enqueued == [] && f.dequeued + f.pending == [Seed(firstUrl)]
  {
  }
}

=== FILE: CrawlSpec.dfy ===
/**
 * The behaviour of Crawler.crawl() as functions: link extraction from one
 * page line (Crawler.java lines 126-133), the scan of a page, and the crawl
 * loop over the FIFO queue of pending pairs, ending in the final state of the
 * two lists. The network is a parameter: a total function from the host and
 * the request text to what the connection yields.
 */
module CrawlSpec {
  import opened Wrappers
  import opened JavaStrings
  import opened LinkPairs
  import opened HttpRequest

  /** Crawler.LINE_PREFIX: the marker a line must contain (ignoring case) to hold a link. */
  const LINE_PREFIX: string := "<a href=\"http://"

  /** Crawler.URL_PREFIX: where a link starts. */
  const URL_PREFIX: string := "http://"

  const QUOTE: string := "\""

  // ----- one line -----

  /** What processing one page line does: nothing, cut out a link, or throw from substring. */
  datatype LineResult = NoLink | Link(url: string) | OutOfBounds

  /** The line contains the marker, compared in lower case. */
  predicate HasMarker(line: string) {
    Contains(Lower(line), Lower(LINE_PREFIX))
  }

  /** Lines 126-133: the text from the first "http://" up to the next '"'. */
  function ExtractLink(line: string): (r: LineResult)
    ensures r.NoLink? <==> !HasMarker(line)
  {
    if !HasMarker(line) then NoLink
    else
      var idxStart := IndexOf(line, URL_PREFIX, 0);
      var idxEnd := IndexOf(line, QUOTE, idxStart);
      match Substring(line, idxStart, idxEnd)
      case Some(u) => Link(u)
      case None => OutOfBounds
  }

  /**
   * [i, j) spans a link: i is the first occurrence of "http://" in the line
   * and j the first '"' at or after i.
   */
  predicate LinkSpan(line: string, i: int, j: int) {
    && OccursAt(line, URL_PREFIX, i)
    && (forall k :: 0 <= k < i ==> !OccursAt(line, URL_PREFIX, k))
    && i <= j < |line| && line[j] == '"'
    && (forall k :: i <= k < j ==> line[k] != '"')
  }

  lemma QuoteOccursAt(s: string, k: int)
    ensures OccursAt(s, QUOTE, k) <==> 0 <= k < |s| && s[k] == '"'
  {
    if 0 <= k < |s| {
      assert s[k..k + 1] == [s[k]];
    }
  }

  /**
   * A marked line yields the link its span delimits when it has one, and
   * otherwise substring throws (no "http://", e.g. an upper-case
   * "HTTP://", or no '"' after it). A link starts with "http://" and holds
   * no '"'.
   */
  lemma ExtractLinkSpec(line: string)
    ensures ExtractLink(line).Link? ==>
              exists i, j :: LinkSpan(line, i, j) && ExtractLink(line).url == line[i..j]
    ensures ExtractLink(line).OutOfBounds? <==> HasMarker(line) && !exists i, j :: LinkSpan(line, i, j)
    ensures ExtractLink(line).Link? ==>
              var u := ExtractLink(line).url;
              |u| >= |URL_PREFIX| && u[..|URL_PREFIX|] == URL_PREFIX && forall k :: 0 <= k < |u| ==> u[k] != '"'
  {
    if HasMarker(line) {
      var i0 := IndexOf(line, URL_PREFIX, 0);
      var j0 := IndexOf(line, QUOTE, i0);
      if i0 >= 0 && j0 >= 0 {
        QuoteOccursAt(line, j0);
        forall k | i0 <= k < j0 ensures line[k] != '"' {
          QuoteOccursAt(line, k);
        }
        assert LinkSpan(line, i0, j0);
        assert ExtractLink(line) == Link(line[i0..j0]);
        forall k | i0 <= k < i0 + |URL_PREFIX| ensures line[k] != '"' {
          assert line[k] == line[i0..i0 + |URL_PREFIX|][k - i0];
        }
        assert j0 >= i0 + |URL_PREFIX|;
        assert line[i0..j0][..|URL_PREFIX|] == line[i0..i0 + |URL_PREFIX|];
      } else {
        assert ExtractLink(line) == OutOfBounds;
        if i, j :| LinkSpan(line, i, j) {
          assert i == i0;
          QuoteOccursAt(line, j);
          assert false;
        }
      }
    }
  }

  /** Conversely, a marked line with a link span yields exactly that span's text. */
  lemma ExtractFromSpan(line: string, i: int, j: int)
    requires HasMarker(line) && LinkSpan(line, i, j)
    ensures ExtractLink(line) == Link(line[i..j])
  {
    ExtractLinkSpec(line);
    var i', j' :| LinkSpan(line, i', j') && ExtractLink(line).url == line[i'..j'];
  }

  // ----- one page -----

  /** The links cut from a page's lines so far, and whether a line threw. */
  datatype Scan = Scan(links: seq<string>, fault: bool)

  /**
   * The inner readLine loop of crawl(): lines in order, stopping at the first
   * line that throws.
   */
  function ScanLines(lines: seq<string>): (r: Scan) {
    if lines == [] then Scan([], false)
    else
      var s := ScanLines(lines[..|lines| - 1]);
      if s.fault then s
      else
        match ExtractLink(lines[|lines| - 1])
        case NoLink => s
        case Link(u) => Scan(s.links + [u], false)
        case OutOfBounds => Scan(s.links, true)
  }

  /** Once a line has thrown, later lines change nothing: the scan stops there. */
  lemma {:induction false} ScanLinesFaultSticks(lines: seq<string>, k: nat)
    requires k <= |lines| && ScanLines(lines[..k]).fault
    ensures ScanLines(lines) == ScanLines(lines[..k])
    decreases |lines|
  {
    if k == |lines| {
      assert lines[..k] == lines;
    } else {
      var init := lines[..|lines| - 1];
      assert init[..k] == lines[..k];
      ScanLinesFaultSticks(init, k);
    }
  }

  /** The marked lines of a page, in page order. */
  function MarkedLines(lines: seq<string>): (r: seq<string>)
    ensures forall k :: 0 <= k < |r| ==> HasMarker(r[k])
  {
    if lines == [] then []
    else if HasMarker(lines[|lines| - 1]) then MarkedLines(lines[..|lines| - 1]) + [lines[|lines| - 1]]
    else MarkedLines(lines[..|lines| - 1])
  }

  /**
   * A page scan fails exactly when one of its lines throws; otherwise it
   * yields one link per marked line, in page order.
   */
  lemma {:induction false} ScanLinesSpec(lines: seq<string>)
    ensures ScanLines(lines).fault <==> exists i :: 0 <= i < |lines| && ExtractLink(lines[i]).OutOfBounds?
    ensures !ScanLines(lines).fault ==>
              var links := ScanLines(lines).links;
              var marked := MarkedLines(lines);
              |links| == |marked| && forall k :: 0 <= k < |links| ==> ExtractLink(marked[k]) == Link(links[k])
  {
    if lines != [] {
      var init := lines[..|lines| - 1];
      var last := lines[|lines| - 1];
      ScanLinesSpec(init);
      assert forall i :: 0 <= i < |init| ==> init[i] == lines[i];
      if !ScanLines(init).fault && ExtractLink(last).OutOfBounds? {
        assert ExtractLink(lines[|lines| - 1]).OutOfBounds?;
      }
    }
  }

  /** The pairs enqueued for the links of a page found at `depth`. */
  function Children(links: seq<string>, depth: int): (kids: seq<URLDepthPair>)
    ensures |kids| == |links|
    ensures forall k :: 0 <= k < |kids| ==> kids[k].url == links[k] && kids[k].depth == depth + 1
  {
    seq(|links|, k requires 0 <= k < |links| => URLDepthPair(links[k], depth + 1))
  }

  lemma ChildrenSnoc(links: seq<string>, u: string, depth: int)
    ensures Children(links + [u], depth) == Children(links, depth) + [URLDepthPair(u, depth + 1)]
  {
  }

  // ----- the crawl loop -----

  /**
   * What a connection yields: an IOException while connecting or opening
   * the input stream, the page's lines read to end of stream, or the lines
   * read before readLine threw an IOException.
   */
  datatype Response = Refused | Page(lines: seq<string>) | ReadFailure(before: seq<string>)

  /** The host to connect to, port 80, and the request text sent; gives what the socket yields. */
  type Network = (string, string) -> Response

  /** Everything crawl() depends on outside the two lists: the url parser, the network, the line separator. */
  datatype World = World(parse: UrlParser, net: Network, lineSeparator: string)

  /**
   * How crawl() ends: normally (queue empty or the depth break), through
   * System.exit(1) (invalid seed, socket or read failure), or by the
   * uncaught StringIndexOutOfBoundsException of substring.
   */
  datatype Outcome = Finished | Exit(status: int) | Crashed

  /**
   * The final state: the outcome and the two lists, and, as observations of
   * the run, every pair removed from the queue and every pair appended to it,
   * in order.
   */
  datatype Final = Final(outcome: Outcome, pending: seq<URLDepthPair>, processed: seq<URLDepthPair>,
                         dequeued: seq<URLDepthPair>, enqueued: seq<URLDepthPair>)

  /**
   * makeConnection(p) followed by reading: host and path come from the
   * pair's url. A url that does not parse is still fetched, from host
   * "Error" with path "Error".
   */
  function Fetch(w: World, p: URLDepthPair): (r: Response)
    ensures match w.parse(p.url)
            case None => r == w.net("Error", RequestText("Error", "Error", w.lineSeparator))
            case Some(u) => r == w.net(u.host, RequestText(u.host, u.path, w.lineSeparator))
  {
    var host := GetHost(p, w.parse);
    w.net(host, RequestText(host, GetPath(p, w.parse), w.lineSeparator))
  }

  /** Depths ordered along the queue. */
  predicate SortedByDepth(q: seq<URLDepthPair>) {
    forall i, j :: 0 <= i <= j < |q| ==> q[i].depth <= q[j].depth
  }

  /**
   * The shape of the queue during a crawl: depths in [0, maxDepth], in
   * order, and at most one apart from head to tail.
   */
  predicate Layered(q: seq<URLDepthPair>, maxDepth: int) {
    && (forall i :: 0 <= i < |q| ==> 0 <= q[i].depth <= maxDepth)
    && SortedByDepth(q)
    && (q != [] ==> q[|q| - 1].depth <= q[0].depth + 1)
  }

  /** Number of queue entries at depth d. */
  function CountDepth(q: seq<URLDepthPair>, d: int): (n: nat) {
    if q == [] then 0 else (if q[0].depth == d then 1 else 0) + CountDepth(q[1..], d)
  }

  /** First half of the termination measure: how many layers remain below the bound. */
  function Rank(q: seq<URLDepthPair>, maxDepth: int): (rank: nat)
    requires Layered(q, maxDepth)
  {
    if q == [] then 0 else maxDepth - q[0].depth + 1
  }

  /** Second half of the termination measure: how many entries share the head's depth. */
  function HeadLayer(q: seq<URLDepthPair>): (layer: nat) {
    if q == [] then 0 else CountDepth(q, q[0].depth)
  }

  lemma {:induction false} CountDepthConcat(a: seq<URLDepthPair>, b: seq<URLDepthPair>, d: int)
    ensures CountDepth(a + b, d) == CountDepth(a, d) + CountDepth(b, d)
  {
    if a != [] {
      assert (a + b)[1..] == a[1..] + b;
      CountDepthConcat(a[1..], b, d);
    } else {
      assert a + b == b;
    }
  }

  lemma {:induction false} CountDepthAbsent(q: seq<URLDepthPair>, d: int)
    requires forall k :: 0 <= k < |q| ==> q[k].depth != d
    ensures CountDepth(q, d) == 0
  {
    if q != [] {
      CountDepthAbsent(q[1..], d);
    }
  }

  /**
   * Processing the head (below the bound) and appending its children keeps
   * the queue layered and decreases the measure (Rank, HeadLayer).
   */
  lemma StepLayered(q: seq<URLDepthPair>, maxDepth: int, kids: seq<URLDepthPair>)
    requires Layered(q, maxDepth) && q != [] && q[0].depth < maxDepth
    requires forall k :: 0 <= k < |kids| ==> kids[k].depth == q[0].depth + 1
    ensures Layered(q[1..] + kids, maxDepth)
    ensures var q' := q[1..] + kids;
            Rank(q', maxDepth) < Rank(q, maxDepth)
            || (Rank(q', maxDepth) == Rank(q, maxDepth) && HeadLayer(q') < HeadLayer(q))
  {
    var d := q[0].depth;
    var rest := q[1..];
    var q' := rest + kids;
    forall i | 0 <= i < |rest| ensures d <= rest[i].depth <= d + 1 {
      assert rest[i] == q[i + 1];
    }
    forall i, j | 0 <= i <= j < |q'| ensures q'[i].depth <= q'[j].depth {
      if j < |rest| {
        assert q'[i] == q[i + 1] && q'[j] == q[j + 1];
      }
    }
    assert Layered(q', maxDepth);
    if rest != [] && rest[0].depth == d {
      CountDepthConcat(rest, kids, d);
      CountDepthAbsent(kids, d);
      assert CountDepth(q, d) == 1 + CountDepth(rest, d);
      assert q'[0] == rest[0];
    }
  }

  /** `s` starts with `prefix`: it only grew at its end. */
  predicate Extends(s: seq<URLDepthPair>, prefix: seq<URLDepthPair>) {
    |prefix| <= |s| && s[..|prefix|] == prefix
  }

  /** A sequence that starts with a + b starts with a, followed by b's first element. */
  lemma PrefixOfConcat(a: seq<URLDepthPair>, b: seq<URLDepthPair>, c: seq<URLDepthPair>)
    requires Extends(c, a + b)
    ensures Extends(c, a)
    ensures b != [] ==> |a| < |c| && c[|a|] == b[0]
  {
    assert c[..|a|] == c[..|a + b|][..|a|];
    if b != [] {
      assert c[|a|] == c[..|a + b|][|a|];
    }
  }

  /**
   * The while loop of crawl() from a given queue and processed list, with
   * the observations so far. Each step removes the head and connects to it;
   * a refused connection exits; a head at the maximum depth breaks out of
   * the loop, dropping that pair and leaving the rest of the queue; otherwise
   * the page's links are appended at depth + 1 and the head is recorded as
   * processed.
   */
  function Loop(w: World, maxDepth: int, pending: seq<URLDepthPair>, processed: seq<URLDepthPair>,
                dequeued: seq<URLDepthPair>, enqueued: seq<URLDepthPair>): (r: Final)
    requires Layered(pending, maxDepth)
    ensures Extends(r.processed, processed)
    ensures Extends(r.enqueued, enqueued)
    ensures Extends(r.dequeued, dequeued)
    ensures pending != [] ==> |dequeued| < |r.dequeued| && r.dequeued[|dequeued|] == pending[0]
    ensures r.outcome.Exit? ==> r.outcome.status == 1
    decreases Rank(pending, maxDepth), HeadLayer(pending)
  {
    if pending == [] then Final(Finished, pending, processed, dequeued, enqueued)
    else
      var h := pending[0];
      var rest := pending[1..];
      var deq := dequeued + [h];
      PrefixOfConcat(dequeued, [h], deq);
      var response := Fetch(w, h);
      if response.Refused? then Final(Exit(1), rest, processed, deq, enqueued)
      else if h.depth == maxDepth then Final(Finished, rest, processed, deq, enqueued)
      else
        var s := ScanLines(if response.Page? then response.lines else response.before);
        var kids := Children(s.links, h.depth);
        PrefixOfConcat(enqueued, kids, enqueued + kids);
        if s.fault then Final(Crashed, rest + kids, processed, deq, enqueued + kids)
        else if response.ReadFailure? then Final(Exit(1), rest + kids, processed, deq, enqueued + kids)
        else
          StepLayered(pending, maxDepth, kids);
          var r := Loop(w, maxDepth, rest + kids, processed + [h], deq, enqueued + kids);
          PrefixOfConcat(processed, [h], r.processed);
          PrefixOfConcat(enqueued, kids, r.enqueued);
          PrefixOfConcat(dequeued, [h], r.dequeued);
          r
  }

  /** The seed pair of a crawl. */
  function Seed(firstUrl: string): (p: URLDepthPair)
    ensures p.url == firstUrl && p.depth == 0
    ensures ToString(p) == "URL: " + firstUrl + ", Depth: 0"
  {
    URLDepthPair(firstUrl, 0)
  }

  /**
   * crawl() on an empty queue: the seed is enqueued, an invalid seed exits
   * before any connection, and otherwise the loop runs.
   */
  function Run(w: World, maxDepth: int, firstUrl: string, processed: seq<URLDepthPair>): (r: Final)
    requires maxDepth >= 0
    ensures Extends(r.processed, processed)
    ensures r.dequeued != [] ==> r.dequeued[0] == Seed(firstUrl)
    ensures r.outcome.Exit? ==> r.outcome.status == 1
  {
    var first := Seed(firstUrl);
    if !IsValidURL(first, w.parse) then Final(Exit(1), [first], processed, [], [])
    else Loop(w, maxDepth, [first], processed, [], [])
  }
}

=== FILE: Crawler.dfy ===
/**
 * Crawler.java: the crawler object. crawl() updates the two lists in place,
 * removing from the head of pendingURLs and appending to both lists; it is
 * proved to leave them, and to end, as CrawlSpec.Run says.
 */
module Crawling {
  import opened Wrappers
  import opened JavaStrings
  import opened LinkPairs
  import opened HttpRequest
  import opened CrawlSpec

  class Crawler {
    /** Pairs waiting to be processed, oldest first. */
    var pendingURLs: seq<URLDepthPair>
    /** Pairs already processed, in processing order. */
    var processedURLs: seq<URLDepthPair>
    var maximumDepth: int
    var firstUrl: string

    constructor (mD: int, fU: string)
      ensures pendingURLs == [] && processedURLs == []
      ensures maximumDepth == mD && firstUrl == fU
    {
      pendingURLs := [];
      processedURLs := [];
      maximumDepth := mD;
      firstUrl := fU;
    }

    /**
     * The readLine loop of crawl() over a page found at `depth`: every marked
     * line's link is appended at depth + 1; a line whose substring throws
     * stops the loop (fault).
     */
    method ReadLinks(lines: seq<string>, depth: int) returns (fault: bool)
      modifies this`pendingURLs
      ensures fault == ScanLines(lines).fault
      ensures pendingURLs == old(pendingURLs) + Children(ScanLines(lines).links, depth)
    {
      var i := 0;
      while i < |lines|
        invariant 0 <= i <= |lines|
        invariant !ScanLines(lines[..i]).fault
        invariant pendingURLs == old(pendingURLs) + Children(ScanLines(lines[..i]).links, depth)
      {
        var line := lines[i];
        ghost var before := ScanLines(lines[..i]);
        assert ScanStep: ScanLines(lines[..i + 1]) == match ExtractLink(line)
                                                    case NoLink => before
                                                    case Link(u) => Scan(before.links + [u], false)
                                                    case OutOfBounds => Scan(before.links, true)
        by {
          assert lines[..i + 1][..i] == lines[..i];
          assert lines[..i + 1][i] == line;
        }
        if Contains(Lower(line), Lower(LINE_PREFIX)) {
          var idxStart := IndexOf(line, URL_PREFIX, 0);
          var idxEnd := IndexOf(line, QUOTE, idxStart);
          var next := Substring(line, idxStart, idxEnd);
          if next.None? {
            assert ExtractLink(line) == OutOfBounds;
            ScanLinesFaultSticks(lines, i + 1);
            return true;
          }
          assert ExtractLink(line) == Link(next.value);
          ChildrenSnoc(before.links, next.value, depth);
          pendingURLs := pendingURLs + [URLDepthPair(next.value, depth + 1)];
        } else {
          assert ExtractLink(line) == NoLink;
        }
        i := i + 1;
      }
      assert lines[..i] == lines;
      return false;
    }

    /**
     * crawl(), on a crawler whose queue is empty (as main() creates it) and
     * whose maximum depth is not negative (as main() checks).
     */
    method Crawl(w: World) returns (outcome: Outcome)
      requires maximumDepth >= 0 && pendingURLs == []
      modifies this`pendingURLs, this`processedURLs
      ensures var f := Run(w, maximumDepth, firstUrl, old(processedURLs));
              outcome == f.outcome && pendingURLs == f.pending && processedURLs == f.processed
    {
      var first := URLDepthPair(firstUrl, 0);
      pendingURLs := pendingURLs + [first];
      assert pendingURLs == [Seed(firstUrl)];
      if !IsValidURL(first, w.parse) {
        return Exit(1);
      }
      ghost var dequeued: seq<URLDepthPair> := [];
      ghost var enqueued: seq<URLDepthPair> := [];
      while pendingURLs != []
        invariant Layered(pendingURLs, maximumDepth)
        invariant Loop(w, maximumDepth, pendingURLs, processedURLs, dequeued, enqueued)
                  == Run(w, maximumDepth, firstUrl, old(processedURLs))
        decreases Rank(pendingURLs, maximumDepth), HeadLayer(pendingURLs)
      {
        ghost var queue := pendingURLs;
        var nextURLPair := pendingURLs[0];
        pendingURLs := pendingURLs[1..];
        var host := GetHost(nextURLPair, w.parse);
        var response := w.net(host, RequestText(host, GetPath(nextURLPair, w.parse), w.lineSeparator));
        if response.Refused? {
          return Exit(1);
        }
        var depth := nextURLPair.depth;
        if depth == maximumDepth {
          break;
        }
        var lines := if response.Page? then response.lines else response.before;
        var fault := ReadLinks(lines, depth);
        if fault {
          return Crashed;
        }
        if response.ReadFailure? {
          return Exit(1);
        }
        processedURLs := processedURLs + [nextURLPair];
        ghost var kids := Children(ScanLines(lines).links, depth);
        StepLayered(queue, maximumDepth, kids);
        dequeued := dequeued + [nextURLPair];
        enqueued := enqueued + kids;
      }
      return Finished;
    }
  }
}

=== FILE: HttpRequest.dfy ===
/**
 * The request text that Crawler.makeConnection writes to the socket. Each
 * of its four `println` calls writes a line that already ends in '\r',
 * followed by the platform line separator; with the separator "\n" every
 * line therefore ends in CRLF, as RFC 7230 section 3 requires of an
 * HTTP/1.1 message.
 */
module HttpRequest {
  import opened Wrappers
  import opened JavaStrings

  const CRLF: string := "\r\n"

  /** PrintWriter.println(line). */
  function Println(line: string, lineSeparator: string): (r: string) {
    line + lineSeparator
  }

  /**
   * The text written by makeConnection for a url with the given host and
   * path. With "\n" as line separator each of the four lines ends in CRLF.
   */
  function RequestText(host: string, path: string, lineSeparator: string): (r: string)
    ensures lineSeparator == "\n" ==>
              r == "GET " + path + " HTTP/1.1" + CRLF + "Host: " + host + CRLF + "Connection: close" + CRLF + CRLF
    ensures |r| >= 4 && r[..4] == "GET "
  {
    Println("GET " + path + " HTTP/1.1\r", lineSeparator)
    + Println("Host: " + host + "\r", lineSeparator)
    + Println("Connection: close\r", lineSeparator)
    + Println("\r", lineSeparator)
  }

  /** Splits a message at each CRLF; the text after the last CRLF is the last element. */
  function SplitCrlf(s: string): (lines: seq<string>)
    ensures |lines| >= 1
    decreases |s|
  {
    var i := IndexOf(s, CRLF, 0);
    if i < 0 then [s] else [s[..i]] + SplitCrlf(s[i + 2..])
  }

  /**
   * The outline of an origin-form request-target (sections 3.1.1 and 5.3.1
   * of RFC 7230): non-empty, starting with '/', and without a space, which
   * would end the target inside the request-line. The character grammar of
   * RFC 3986 (which characters a path segment or query may hold) is not
   * checked.
   */
  predicate PathTarget(t: string) {
    t != [] && t[0] == '/' && forall i :: 0 <= i < |t| ==> t[i] != ' '
  }

  /**
   * Reads back the line structure RFC 7230 gives to a GET with a Host
   * header (sections 3.1.1, 5.4) and `Connection: close` (section 6.1):
   * request-line "GET <target> HTTP/1.1" with a target as `PathTarget`
   * describes, a "Host: " line, the Connection line, an empty line, each
   * ended by CRLF, and nothing after them. Yields the Host value and the
   * request-target; the characters of either are not checked further.
   */
  function ParseRequest(s: string): (r: Option<ParsedRequest>) {
    var lines := SplitCrlf(s);
    if |lines| == 5 && lines[2] == "Connection: close" && lines[3] == "" && lines[4] == ""
       && |lines[0]| >= 13 && lines[0][..4] == "GET " && lines[0][|lines[0]| - 9..] == " HTTP/1.1"
       && PathTarget(lines[0][4..|lines[0]| - 9])
       && |lines[1]| >= 6 && lines[1][..6] == "Host: "
    then Some(ParsedRequest(lines[1][6..], lines[0][4..|lines[0]| - 9]))
    else None
  }

  datatype ParsedRequest = ParsedRequest(host: string, target: string)

  /** A line that contains no carriage return or line feed. */
  predicate SingleLine(s: string) {
    forall i :: 0 <= i < |s| ==> s[i] != '\r' && s[i] != '\n'
  }

  /** A string without carriage returns. */
  predicate NoCr(s: string) {
    forall i :: 0 <= i < |s| ==> s[i] != '\r'
  }

  lemma NoCrConcat(a: string, b: string)
    requires NoCr(a) && NoCr(b)
    ensures NoCr(a + b)
  {
    forall i | 0 <= i < |a + b| ensures (a + b)[i] != '\r' {
      if i >= |a| { assert (a + b)[i] == b[i - |a|]; }
    }
  }

  lemma SplitFirstLine(x: string, rest: string)
    requires NoCr(x)
    ensures SplitCrlf(x + CRLF + rest) == [x] + SplitCrlf(rest)
  {
    var s := x + CRLF + rest;
    assert OccursAt(s, CRLF, |x|) by {
      assert s[|x|..|x| + 2] == CRLF;
    }
    forall j | 0 <= j < |x|
      ensures !OccursAt(s, CRLF, j)
    {
      assert s[j] == x[j];
    }
    var i := IndexOf(s, CRLF, 0);
    assert i == |x|;
    assert s[..i] == x;
    assert s[i + 2..] == rest;
  }

  /**
   * With "\n" as line separator, a host and path free of line breaks are
   * read back from the request exactly when the path is non-empty, starts
   * with '/' and holds no space: the text then has the request-line
   * "GET <path> HTTP/1.1", the Host line with the url's host, the
   * Connection line and the empty line. An empty path (a url such as
   * "http://example.com") gives the request-line "GET  HTTP/1.1", whose
   * target is missing.
   */
  lemma RequestRoundTrip(host: string, path: string)
    requires SingleLine(host) && SingleLine(path)
    ensures ParseRequest(RequestText(host, path, "\n"))
            == if PathTarget(path) then Some(ParsedRequest(host, path)) else None
  {
    RequestLines(host, path);
    ParseRequestLines(RequestText(host, path, "\n"), host, path);
  }

  /** A url without a path, such as "http://example.com", yields a request-line with no target. */
  lemma EmptyPathNotWellFormed(host: string)
    requires SingleLine(host)
    ensures ParseRequest(RequestText(host, "", "\n")) == None
  {
    RequestRoundTrip(host, "");
  }

  lemma SplitThreeLines(l0: string, l1: string, l2: string)
    requires NoCr(l0) && NoCr(l1) && NoCr(l2)
    ensures SplitCrlf(l0 + CRLF + l1 + CRLF + l2 + CRLF + CRLF) == [l0, l1, l2, "", ""]
  {
    var t3 := "" + CRLF + "";
    var t2 := l2 + CRLF + t3;
    var t1 := l1 + CRLF + t2;
    assert l0 + CRLF + l1 + CRLF + l2 + CRLF + CRLF == l0 + CRLF + t1;
    assert SplitCrlf(t3) == ["", ""] by {
      assert SplitCrlf("") == [""];
      SplitFirstLine("", "");
    }
    SplitFirstLine(l2, t3);
    SplitFirstLine(l1, t2);
    SplitFirstLine(l0, t1);
  }

  lemma PrintlnWithNewline(x: string)
    ensures Println(x + "\r", "\n") == x + CRLF
  {
  }

  lemma RequestLines(host: string, path: string)
    requires SingleLine(host) && SingleLine(path)
    ensures SplitCrlf(RequestText(host, path, "\n"))
            == ["GET " + path + " HTTP/1.1", "Host: " + host, "Connection: close", "", ""]
  {
    var l0 := "GET " + path + " HTTP/1.1";
    var l1 := "Host: " + host;
    var l2 := "Connection: close";
    assert NoCr(l0) by {
      assert NoCr("GET ") && NoCr(" HTTP/1.1");
      NoCrConcat("GET ", path);
      NoCrConcat("GET " + path, " HTTP/1.1");
    }
    assert NoCr(l1) by {
      assert NoCr("Host: ");
      NoCrConcat("Host: ", host);
    }
    assert NoCr(l2);
    assert RequestText(host, path, "\n") == (l0 + CRLF) + (l1 + CRLF) + (l2 + CRLF) + ("" + CRLF) by {
      assert "GET " + path + " HTTP/1.1\r" == l0 + "\r";
      PrintlnWithNewline(l0);
      assert "Host: " + host + "\r" == l1 + "\r";
      PrintlnWithNewline(l1);
      assert "Connection: close\r" == l2 + "\r";
      PrintlnWithNewline(l2);
      assert "\r" == "" + "\r";
      PrintlnWithNewline("");
    }
    Regroup(l0, l1, l2, CRLF);
    SplitThreeLines(l0, l1, l2);
  }

  lemma Regroup(a: string, b: string, c: string, e: string)
    ensures (a + e) + (b + e) + (c + e) + ("" + e) == a + e + b + e + c + e + e
  {
  }

  lemma ParseRequestLines(s: string, host: string, path: string)
    requires SplitCrlf(s) == ["GET " + path + " HTTP/1.1", "Host: " + host, "Connection: close", "", ""]
    ensures ParseRequest(s) == if PathTarget(path) then Some(ParsedRequest(host, path)) else None
  {
    var l0 := "GET " + path + " HTTP/1.1";
    var l1 := "Host: " + host;
    assert l0[..4] == "GET " && l0[|l0| - 9..] == " HTTP/1.1" && l0[4..|l0| - 9] == path;
    assert l1[..6] == "Host: " && l1[6..] == host;
  }
}

=== FILE: JavaStrings.dfy ===
/**
 * The few java.lang.String operations the crawler relies on, with Java's
 * edge cases: indexOf returns -1 when the pattern is absent and treats a
 * negative start index as 0, and substring throws when its indices are out
 * of order or out of range (modelled as None).
 */
module JavaStrings {
  import opened Wrappers

  /** `pat` occurs in `s` starting at index `i`. */
  predicate OccursAt(s: string, pat: string, i: int) {
    0 <= i && i + |pat| <= |s| && s[i..i + |pat|] == pat
  }

  /** String.indexOf(pat, from) for a non-empty pattern. */
  function IndexOf(s: string, pat: string, from: int): (r: int)
    requires pat != []
    ensures r == -1 || (0 <= r && from <= r && OccursAt(s, pat, r))
    ensures r == -1 ==> forall i :: from <= i ==> !OccursAt(s, pat, i)
    ensures r >= 0 ==> forall i :: from <= i < r ==> !OccursAt(s, pat, i)
    decreases |s| - (if from < 0 then 0 else from)
  {
    var f := if from < 0 then 0 else from;
    if f + |pat| > |s| then -1
    else if s[f..f + |pat|] == pat then f
    else IndexOf(s, pat, f + 1)
  }

  /** String.contains(pat). */
  predicate Contains(s: string, pat: string)
    requires pat != []
  {
    IndexOf(s, pat, 0) >= 0
  }

  /** String.substring(b, e): None where Java throws StringIndexOutOfBoundsException. */
  function Substring(s: string, b: int, e: int): (r: Option<string>)
    ensures r.Some? <==> 0 <= b <= e <= |s|
    ensures r.Some? ==> |r.value| == e - b && forall k :: 0 <= k < e - b ==> r.value[k] == s[b + k]
  {
    if 0 <= b <= e <= |s| then Some(s[b..e]) else None
  }

  /** Character.toLowerCase restricted to ASCII letters. */
  function LowerChar(c: char): char {
    if 'A' <= c <= 'Z' then (c as int + 32) as char else c
  }

  /** String.toLowerCase restricted to ASCII letters. */
  function Lower(s: string): (r: string)
    ensures |r| == |s|
    ensures forall i :: 0 <= i < |s| ==> r[i] == LowerChar(s[i])
  {
    seq(|s|, i requires 0 <= i < |s| => LowerChar(s[i]))
  }
}

=== FILE: Locations.dfy ===
/**
 * Lab2/Location.java: a grid location with structural equality and a hash
 * code computed in Java's 32-bit two's-complement arithmetic.
 */
module Locations {

  const Two32: int := 0x1_0000_0000

  /** Java `int`. */
  newtype int32 = x: int | -0x8000_0000 <= x < 0x8000_0000

  /** The Java `int` congruent to `x` modulo 2^32 (what a wrapping operation yields). */
  function Wrap32(x: int): (r: int32)
    ensures (x - r as int) % Two32 == 0
  {
    var m := x % Two32;
    (if m >= 0x8000_0000 then m - Two32 else m) as int32
  }

  /** Java `a * b` on ints. */
  function Mul32(a: int32, b: int32): (r: int32) {
    Wrap32(a as int * b as int)
  }

  /** Java `a + b` on ints. */
  function Add32(a: int32, b: int32): (r: int32) {
    Wrap32(a as int + b as int)
  }

  /** Two integers congruent modulo 2^32 wrap to the same Java int. */
  lemma WrapCongruent(u: int, v: int, k: int)
    requires u == v + k * Two32
    ensures Wrap32(u) == Wrap32(v)
  {
    assert u % Two32 == v % Two32;
  }

  /** Wrapping the operand of a product or sum first does not change the wrapped result. */
  lemma WrapInner(c: int, x: int, y: int)
    ensures Wrap32(c * (Wrap32(x) as int) + y) == Wrap32(c * x + y)
  {
    var w := Wrap32(x) as int;
    var k := (x - w) / Two32;
    assert x == w + k * Two32;
    assert c * x + y == c * w + y + (c * k) * Two32 by {
      assert c * x == c * w + c * (k * Two32);
      assert c * (k * Two32) == (c * k) * Two32;
    }
    WrapCongruent(c * x + y, c * w + y, c * k);
  }

  /** A location; the datatype constructor is the two-argument Java constructor. */
  datatype Location = Location(xCoord: int32, yCoord: int32)

  /** `new Location()`. */
  function Origin(): (r: Location)
    ensures r.xCoord == 0 && r.yCoord == 0
    ensures HashCode(r) == 23273
  {
    Location(0, 0)
  }

  /** The Java values an `Object` parameter can hold, as far as `equals` can tell them apart. */
  datatype JavaObject = Null | LocationObject(loc: Location) | OtherObject(className: string)

  /** Location.equals(Object). */
  function Equals(self: Location, obj: JavaObject): (r: bool)
    ensures r <==> obj.LocationObject? && obj.loc.xCoord == self.xCoord && obj.loc.yCoord == self.yCoord
    ensures r <==> obj == LocationObject(self)
  {
    match obj
    case LocationObject(other) => self.xCoord == other.xCoord && self.yCoord == other.yCoord
    case _ => false
  }

  /** Location.hashCode(): 17, then `37 * result + xCoord`, then `37 * result + yCoord`, each step wrapping. */
  function HashCode(l: Location): (r: int32)
    ensures r == Wrap32(37 * (37 * 17 + l.xCoord as int) + l.yCoord as int)
  {
    var result: int32 := 17;
    var result1 := Add32(Mul32(37, result), l.xCoord);
    var r := Add32(Mul32(37, result1), l.yCoord);
    WrapInner(1, 37 * (result1 as int), l.yCoord as int);
    WrapInner(37, 37 * 17 + l.xCoord as int, l.yCoord as int);
    r
  }

  /** equals is an equivalence relation on locations. */
  lemma EqualsIsEquivalence(a: Location, b: Location, c: Location)
    ensures Equals(a, LocationObject(a))
    ensures Equals(a, LocationObject(b)) <==> Equals(b, LocationObject(a))
    ensures Equals(a, LocationObject(b)) && Equals(b, LocationObject(c)) ==> Equals(a, LocationObject(c))
  {
  }

  /** Equal locations have equal hash codes, as HashMap<Location, _> requires. */
  lemma EqualsConsistentWithHashCode(a: Location, b: Location)
    requires Equals(a, LocationObject(b))
    ensures HashCode(a) == HashCode(b)
  {
  }

  /** The hash code is not injective: (0, 37) and (1, 0) collide, so a HashMap must fall back on equals. */
  lemma HashCollision()
    ensures !Equals(Location(0, 37), LocationObject(Location(1, 0)))
    ensures HashCode(Location(0, 37)) == HashCode(Location(1, 0)) == 23310
  {
  }
}

=== FILE: URLDepthPair.dfy ===
/**
 * URLDepthPair.java: an immutable (url, depth) pair. The Java class parses
 * its url with java.net.URL, which is library code; here the parser is a
 * parameter, a total function that either rejects the string (Java throws
 * MalformedURLException) or yields its host and path. isValidURL, getHost
 * and getPath all consult that one parser, as the three Java methods all
 * call `new URL(url)`.
 */
module LinkPairs {
  import opened Wrappers

  /** The parts of a parsed java.net.URL that the crawler uses. */
  datatype ParsedUrl = ParsedUrl(host: string, path: string)

  /** `new URL(s)`: None where it throws MalformedURLException. */
  type UrlParser = string -> Option<ParsedUrl>

  /**
   * A url and its depth. The datatype constructor is the Java constructor and
   * the destructors `url` and `depth` are getURL() and getDepth(): the fields
   * are fixed at construction and nothing changes them.
   */
  datatype URLDepthPair = URLDepthPair(url: string, depth: int)

  /**
   * isValidURL(). It, getHost() and getPath() all construct `new URL(url)`,
   * so the two views take their "Error" branch exactly when this is false.
   */
  function IsValidURL(p: URLDepthPair, parse: UrlParser): (valid: bool)
    ensures match parse(p.url)
            case None => !valid && GetHost(p, parse) == "Error" && GetPath(p, parse) == "Error"
            case Some(u) => valid && GetHost(p, parse) == u.host && GetPath(p, parse) == u.path
  {
    parse(p.url).Some?
  }

  /** getHost(): "Error" when the url does not parse. */
  function GetHost(p: URLDepthPair, parse: UrlParser): (host: string)
    ensures parse(p.url).None? ==> host == "Error"
    ensures parse(p.url).Some? ==> host == parse(p.url).value.host
  {
    match parse(p.url)
    case Some(u) => u.host
    case None => "Error"
  }

  /** getPath(): "Error" when the url does not parse. */
  function GetPath(p: URLDepthPair, parse: UrlParser): (path: string)
    ensures parse(p.url).None? ==> path == "Error"
    ensures parse(p.url).Some? ==> path == parse(p.url).value.path
  {
    match parse(p.url)
    case Some(u) => u.path
    case None => "Error"
  }

  /** The three url views depend on the url string alone, never on the depth. */
  lemma UrlViewsDependOnUrlOnly(p: URLDepthPair, q: URLDepthPair, parse: UrlParser)
    requires p.url == q.url
    ensures IsValidURL(p, parse) == IsValidURL(q, parse)
    ensures GetHost(p, parse) == GetHost(q, parse) && GetPath(p, parse) == GetPath(q, parse)
  {
  }

  // ----- Integer.toString and its inverse -----

  predicate IsDigit(c: char) {
    '0' <= c <= '9'
  }

  predicate AllDigits(s: string) {
    forall i :: 0 <= i < |s| ==> IsDigit(s[i])
  }

  function DigitChar(d: int): (c: char)
    requires 0 <= d < 10
    ensures IsDigit(c) && c as int - '0' as int == d
  {
    (d + '0' as int) as char
  }

  /** Decimal digits of a natural number, most significant first, without leading zeros. */
  function NatToDecimal(n: nat): (r: string)
    decreases n
  {
    if n < 10 then [DigitChar(n)] else NatToDecimal(n / 10) + [DigitChar(n % 10)]
  }

  /**
   * Integer.toString(n): a '-' exactly for negative n, then at least one
   * digit, with no leading zero unless the number is 0, which is "0".
   */
  function IntToDecimal(n: int): (r: string)
    ensures |r| >= 1 && (r[0] == '-' <==> n < 0)
    ensures var ds := if n < 0 then r[1..] else r;
            ds != [] && AllDigits(ds) && (ds[0] == '0' <==> n == 0)
    ensures n == 0 ==> r == "0"
  {
    NatToDecimalDigits(if n < 0 then -n else n);
    if n < 0 then "-" + NatToDecimal(-n) else NatToDecimal(n)
  }

  /** The value of a string of decimal digits. */
  function DigitsValue(s: string): (v: nat)
    requires AllDigits(s)
  {
    if s == [] then 0 else DigitsValue(s[..|s| - 1]) * 10 + (s[|s| - 1] as int - '0' as int)
  }

  /** Integer.parseInt without the 32-bit range check: an optional '-' and at least one digit. */
  function ParseDecimal(s: string): (r: Option<int>) {
    if |s| > 1 && s[0] == '-' && AllDigits(s[1..]) then Some(-(DigitsValue(s[1..]) as int))
    else if s != [] && AllDigits(s) then Some(DigitsValue(s))
    else None
  }

  lemma {:induction false} NatToDecimalDigits(n: nat)
    ensures NatToDecimal(n) != [] && AllDigits(NatToDecimal(n))
    ensures DigitsValue(NatToDecimal(n)) == n
    ensures NatToDecimal(n)[0] == '0' <==> n == 0
    decreases n
  {
    if n >= 10 {
      NatToDecimalDigits(n / 10);
      var s := NatToDecimal(n);
      assert s[..|s| - 1] == NatToDecimal(n / 10);
      assert s[0] == NatToDecimal(n / 10)[0];
    }
  }

  /** Reading back a decimal written by Integer.toString gives the number. */
  lemma DecimalRoundTrip(n: int)
    ensures ParseDecimal(IntToDecimal(n)) == Some(n)
  {
    NatToDecimalDigits(if n < 0 then -n else n);
    if n < 0 {
      assert IntToDecimal(n)[1..] == NatToDecimal(-n);
    }
  }

  // ----- toString and its inverse -----

  /**
   * toString(): "URL: <url>, Depth: <depth>". Whatever the url holds, the
   * depth is the line's longest trailing run of digits and '-', and what
   * precedes it ends in ", Depth: ".
   */
  function ToString(p: URLDepthPair): (r: string)
    ensures var k := NumeralTailStart(r);
            && k == 14 + |p.url| && r[..5] == "URL: " && r[5..k - 9] == p.url && r[k - 9..k] == ", Depth: "
            && r[k..] == IntToDecimal(p.depth)
  {
    var x := "URL: " + p.url + ", Depth: ";
    var d := IntToDecimal(p.depth);
    assert forall i :: 0 <= i < |d| ==> IsNumeral(d[i]) by {
      forall i | 0 <= i < |d| ensures IsNumeral(d[i]) {
        if i > 0 || p.depth >= 0 {
          var ds := if p.depth < 0 then d[1..] else d;
          assert d[i] == ds[if p.depth < 0 then i - 1 else i];
        }
      }
    }
    NumeralTailOfConcat(x, d);
    assert (x + d)[..5] == x[..5];
    assert (x + d)[5..|x| - 9] == x[5..|x| - 9];
    assert (x + d)[|x|..] == d;
    assert (x + d)[|x| - 9..|x|] == x[|x| - 9..];
    x + d
  }

  /** A character Integer.toString can produce. */
  predicate IsNumeral(c: char) {
    IsDigit(c) || c == '-'
  }

  /** Start of the longest suffix of `s` made of numerals. */
  function NumeralTailStart(s: string): (k: nat)
    ensures k <= |s|
    ensures forall i :: k <= i < |s| ==> IsNumeral(s[i])
    ensures k > 0 ==> !IsNumeral(s[k - 1])
  {
    if s != [] && IsNumeral(s[|s| - 1]) then NumeralTailStart(s[..|s| - 1]) else |s|
  }

  /**
   * Recovers the pair from a line printed by the crawler's report: the depth
   * is the trailing numeral, the url is what lies between "URL: " and the
   * ", Depth: " before it.
   */
  function ParseReport(s: string): (r: Option<URLDepthPair>) {
    var k := NumeralTailStart(s);
    var head := s[..k];
    if |head| >= 14 && head[..5] == "URL: " && head[|head| - 9..] == ", Depth: " then
      match ParseDecimal(s[k..])
      case Some(d) => Some(URLDepthPair(head[5..|head| - 9], d))
      case None => None
    else None
  }

  lemma {:induction false} NumeralTailOfConcat(x: string, d: string)
    requires x != [] && !IsNumeral(x[|x| - 1])
    requires forall i :: 0 <= i < |d| ==> IsNumeral(d[i])
    ensures NumeralTailStart(x + d) == |x|
    decreases |d|
  {
    if d == [] {
      assert x + d == x;
    } else {
      assert (x + d)[..|x + d| - 1] == x + d[..|d| - 1];
      NumeralTailOfConcat(x, d[..|d| - 1]);
    }
  }

  /** toString is injective: the report line of a pair determines the pair. */
  lemma ReportRoundTrip(p: URLDepthPair)
    ensures ParseReport(ToString(p)) == Some(p)
  {
    var x := "URL: " + p.url + ", Depth: ";
    var d := IntToDecimal(p.depth);
    NatToDecimalDigits(if p.depth < 0 then -p.depth else p.depth);
    assert forall i :: 0 <= i < |d| ==> IsNumeral(d[i]);
    NumeralTailOfConcat(x, d);
    var s := ToString(p);
    assert s == x + d;
    assert s[..|x|] == x;
    assert s[|x|..] == d;
    assert x[5..|x| - 9] == p.url;
    DecimalRoundTrip(p.depth);
  }
}

=== FILE: Wrappers.dfy ===
/** Option and Result values used where the Java code returns null or throws. */
module Wrappers {

  datatype Option<+T> = None | Some(value: T)

  datatype Result<+R, +E> = Success(value: R) | Failure(error: E)
}
